=== FILE: README.md ===
# TestingBot tunnel launcher — a Dafny model

This project models the core of `testingbot-tunnel-launcher`. That core fetches
the TestingBot tunnel jar, caches it, starts it under `java`, and supervises
the process until it is ready or has failed. It also stops the tunnel when
asked. The model covers two files:

- `lib/tunnel-launcher.js`:
  - `download`: the jar's path and URL, and the cache-or-fetch decision.
  - `run`: the jar check, the argument vector, stale readiness-file removal,
    the poll for the readiness file, the stderr classifier, and the exit
    handler.
  - `killTunnel` and the `downloadAndRun` chain.
- `lib/downloader.js`: the outcome rules of `get`.

All I/O is replaced by inputs and events:

- The cached jar is an `Entry` (missing, or a file of some size).
- What `https.get` reports is a `Response`: a request error, or a status code
  plus how the transfer into the file ended.
- The readiness file is a `PathKind`: absent, a regular file the launcher
  may delete, a regular file it may not delete, or another kind of entry.
- After `run`, the timer tick, stderr chunks, the process exit and the tunnel
  writing its readiness file are `Event`s.
- Each handler is a pure function from the launcher's module state
  (`started`, `activeTunnel`, readiness file, poll timer) to a new state plus
  a list of effects: spawn, SIGINT, callback invocation, uncaught exception.

Modules, one per file:

| file | module | models |
|---|---|---|
| text.dfy | `Text` | `toString` of integers, `indexOf`, ASCII `toLowerCase`, `trim` |
| js.dfy | `Js` | option values, truthiness, template-literal conversion, errors, the options object |
| downloader.dfy | `Downloader` | `downloader.get` |
| artifact.dfy | `Artifact` | jar descriptor and `download` |
| arguments.dfy | `Arguments` | the argument vector built in `run` |
| classifier.dfy | `Classifier` | the stderr decision in `run` |
| lifecycle.dfy | `Lifecycle` | `run`'s handlers, `killTunnel`, `downloadAndRun` |
| scenarios.dfy | `Scenarios` | concrete runs matching the tests, and the places where code and tests differ |

Where the code behaves differently from what its tests expect, or from
what a reader of its option names would expect, the model follows the code:

- The cache is trusted when the file is larger than 1024 bytes. The jar is
  never run in a self-check mode.
- Option names are not remapped: `tunnelIdentifier` becomes
  `--tunnelIdentifier` (`Scenarios.NoNameRemapping`).
- A falsy option value still emits a bare `--key`
  (`Scenarios.NullOptionStillFlagged`). A `true` value is pushed after its
  flag like any other truthy value (`Scenarios.TrueOptionCarriesValue`).
- There is no readiness timeout, and no check of the Java version.
- Only the `error code : 401` pattern and the generic "error" pattern are
  recognised.
- The poll is not cancelled when the process exits. A tunnel that writes
  its readiness file and exits before the next tick gets `run`'s callback
  invoked twice (`Scenarios.ExitBeforeTickResolvesTwice`).
- A failed unlink of a stale readiness file is ignored. A stale file the
  launcher may not delete reports the new launch ready on the first tick
  (`Scenarios.PinnedStaleFileReadyAtOnce`).
- `run` never resets `started`. After that second report the flag stays set,
  so the next launch's tunnel can exit before it is ready without `run`'s
  callback being invoked at all (`Scenarios.StaleStartedSilencesNextExit`).
- A launch can still be reported ready after a fatal stderr chunk
  (`Scenarios.FatalChunkThenMarkerStillReady`).
- A second launch is not rejected.
- A request error in the middle of the body leaves the partial jar in
  place. When it is larger than 1024 bytes the next `download` trusts it
  (`Artifact.PartialJarTrustedNextTime`).

## Model

| member | source | states |
|---|---|---|
| Text.IntToString | lib/tunnel-launcher.js:151 | the rendering of an exit code is non-empty, starts with `-` exactly for a negative code, and is the plain digits otherwise |
| Text.IntToStringInjective | lib/tunnel-launcher.js:151 | two exit codes with the same rendering are equal, so the exit message names the code |
| Text.ToLower | lib/tunnel-launcher.js:121 | `toLowerCase` keeps the length and lowers each character in place |
| Text.ToLowerLowers | lib/tunnel-launcher.js:121 | the lowered text has no upper-case ASCII letter, and every other character is unchanged |
| Text.NatToString | lib/downloader.js:17 | the status code's decimal text is non-empty, all digits, with no leading zero |
| Text.DigitsValueOfNatToString | lib/downloader.js:17 | reading the rendered status code back as digits gives the code again, so the message determines the status |
| Text.IndexOfFrom | lib/tunnel-launcher.js:118 | `indexOf` returns -1 exactly when the pattern never occurs; otherwise it returns an index where the pattern occurs, with no earlier occurrence |
| Text.ContainsLowerIff | lib/tunnel-launcher.js:121 | `toLowerCase().indexOf('error') > -1` holds exactly when some window of the line matches "error" letter by letter, ignoring case |
| Text.Trim | lib/tunnel-launcher.js:111 | the trimmed chunk is a slice of the chunk; everything cut from either end is whitespace, and what remains neither starts nor ends with whitespace |
| Text.TrimKeepsContainment | lib/tunnel-launcher.js:111-121 | trimming never changes whether a pattern with non-blank ends occurs |
| Js.FalsyValues | lib/tunnel-launcher.js:22 | `Js.Truthy` fails exactly for `undefined`, `null`, `false`, `0` and `""` |
| Js.ToJsString | lib/tunnel-launcher.js:23-24 | a string renders as itself, a number as its decimal text, and a truthy value never renders as the empty text |
| Js.Lookup | lib/tunnel-launcher.js:64-70 | `options[key]` is `undefined` when no property has that key, and is that property's value otherwise |
| Downloader.Get | lib/downloader.js:12-33 | status ≥ 400 gives the fixed status error with a null destination and the file untouched; a finished write gives no error and exactly `options.destination`; a write error removes the file and returns that error; a request error before the file was opened returns that error and leaves the file as it was; a request error after the file was opened returns that error and leaves the partial file; the error is null exactly when the destination is non-null |
| Downloader.StatusErrorNamesStatus | lib/downloader.js:16-17 | the status error message ends with the status code's digits, which read back as the status |
| Artifact.JarName | lib/tunnel-launcher.js:18-25 | every jar name starts with `testingbot-tunnel` and ends with `.jar`; it is the default `testingbot-tunnel.jar` exactly when the version is falsy; a truthy version's text sits between `testingbot-tunnel-` and `.jar` |
| Artifact.Describe | lib/tunnel-launcher.js:18-25 | the URL is the download base and the cached path is the install directory, each followed by the same jar name for the `tunnelVersion` option |
| Artifact.DefaultDescriptor | lib/tunnel-launcher.js:18-20 | with no `tunnelVersion`, the cached path ends in `testingbot-tunnel.jar` and the URL is `https://testingbot.com/tunnel/` followed by that name |
| Artifact.VersionedDescriptor | lib/tunnel-launcher.js:22-25 | with version `v`, the path ends in `testingbot-tunnel-v.jar` and the URL is `https://testingbot.com/tunnel/` followed by that name |
| Artifact.JarNameInjective | lib/tunnel-launcher.js:18-25 | two version settings share a jar name only if both are unset or both render to the same text, so each version has its own cached file |
| Artifact.Download | lib/tunnel-launcher.js:27-40 | no fetch happens exactly when a cached file is larger than 1024 bytes, and then the result is success; otherwise the URL is fetched into the cache path, and the result is an error exactly when the downloader reported one, with message equal to the fixed connection hint followed by the downloader's message; success leaves a file in place |
| Artifact.SecondDownloadUsesCache | lib/tunnel-launcher.js:27-32 | after a download that leaves a file over 1024 bytes, a second download fetches nothing, whatever the network would answer |
| Artifact.SmallJarIsRefetched | lib/tunnel-launcher.js:27-34 | a successful fetch of at most 1024 bytes is fetched again next time |
| Artifact.PartialJarTrustedNextTime | lib/tunnel-launcher.js:27-37 | a fetch whose request fails after more than 1024 bytes were written fails, leaves that partial jar, and the next download reuses it without fetching |
| Artifact.FetchFailureHasPrefix | lib/tunnel-launcher.js:35-37 | every download failure message starts with `Could not download the tunnel from TestingBot - please check your connection. ` |
| Arguments.EntryArgs | lib/tunnel-launcher.js:73-82 | a reserved key contributes nothing; any other key contributes its flag `--key`, followed by its value exactly when the value is truthy |
| Arguments.OptionArgsEmptyIff | lib/tunnel-launcher.js:72-83 | the option section is empty exactly when every key is one of the four reserved keys |
| Arguments.OptionArgsFromEntries | lib/tunnel-launcher.js:72-83 | every element of the option section is the flag of a non-reserved key or a truthy value of some entry |
| Arguments.CredentialArgs | lib/tunnel-launcher.js:64-70 | the credentials part holds one element per truthy credential, all truthy: the apiKey first when truthy, the apiSecret last when truthy |
| Arguments.LaunchArgs | lib/tunnel-launcher.js:59-94 | the vector has at least four elements; it starts with `-jar`, location and ends with `-f`, `<tmpdir>/testingbot.ready` |
| Arguments.OptionArgs | lib/tunnel-launcher.js:72-83 | the `for..in` pass yields at most two elements per entry; its contents are fixed by `OptionArgsEmptyIff`, `OptionArgsFromEntries`, `OptionArgsAppend`, `EntryPlacement`, `FlagPresentIff` and `FlagCount` |
| Arguments.OptionArgsAppend | lib/tunnel-launcher.js:72-83 | the option pass over two consecutive runs of entries is the pass over the first followed by the pass over the second, so flags follow enumeration order |
| Arguments.OptionPass | lib/tunnel-launcher.js:72-83 | the loop over options builds exactly the option section: per non-reserved key its flag, then its value when truthy |
| Arguments.BuildArgs | lib/tunnel-launcher.js:59-94 | the pushes, including the two conditional credential pushes, build exactly `LaunchArgs`: the vector starts with `-jar`, location; then the truthy credentials; then the option section; it always ends with `-f`, `<tmpdir>/testingbot.ready` |
| Arguments.CredentialPlacement | lib/tunnel-launcher.js:64-70 | the apiKey sits right after the location when truthy, then the apiSecret when truthy; with neither, the option section follows the location directly |
| Arguments.EntryPlacement | lib/tunnel-launcher.js:72-83 | entry i's flag, and its value exactly when truthy, appear right after the output of the entries before it |
| Arguments.FlagPresentIff | lib/tunnel-launcher.js:72-83 | when no value looks like a flag, `--k` appears exactly when some key is `k` and `k` is not one of `apiKey`, `apiSecret`, `verbose`, `tunnelVersion` |
| Arguments.FlagCount | lib/tunnel-launcher.js:72-83 | with distinct keys and no flag-like values, each non-reserved key yields exactly one `--key` and reserved keys yield none |
| Classifier.Classify | lib/tunnel-launcher.js:118-125 | the chunk is an invalid-credentials failure exactly when it contains `error code : 401`; it is a generic failure carrying itself exactly when it does not, but contains "error" in any case; otherwise it is unclassified |
| Classifier.ClassifyChunk | lib/tunnel-launcher.js:111-125 | the raw chunk is an invalid-credentials failure exactly when it contains `error code : 401`; it is a generic failure exactly when it does not but its lower-cased text contains `error`, and that failure carries the trimmed chunk |
| Classifier.ErrorText | lib/tunnel-launcher.js:119-123 | an invalid-credentials failure records the fixed message; a generic failure records its own line |
| Classifier.ErrorTextIsFatal | lib/tunnel-launcher.js:119-123 | a recorded error is non-empty and is either the invalid-credentials message or a text mentioning "error" |
| Classifier.ChunkDecisionIgnoresTrim | lib/tunnel-launcher.js:111-121 | classifying the trimmed chunk gives invalid credentials exactly when the raw chunk contains `error code : 401`, and a generic failure exactly when it does not but its lower-cased text contains `error` |
| Lifecycle.Run | lib/tunnel-launcher.js:43-108 | a missing jar reports `Tunnel jar file is not present in <location>` and changes nothing, with nothing spawned or polled; otherwise `java` is spawned with the built arguments, the poll starts, a readiness file left as a regular file the launcher may delete is removed, a file it may not delete and any other entry are kept, the path ends up empty exactly in the first case or when it was empty, and `started` is untouched |
| Lifecycle.OnMarkerWritten | lib/tunnel-launcher.js:93-94 | the tunnel writing the file named after `-f` makes the readiness path taken, reports nothing and changes nothing else |
| Lifecycle.ExitFailure | lib/tunnel-launcher.js:151 | the exit error is never empty; it is the recorded error when that is non-empty, and otherwise the exit-code message |
| Lifecycle.OnPoll | lib/tunnel-launcher.js:96-103 | a tick reports ready with the current tunnel exactly when the poll runs and the readiness path exists, and that single report is its only effect; it then sets `started` and stops the poll, and otherwise changes nothing |
| Lifecycle.OnStderr | lib/tunnel-launcher.js:110-126 | a fatal chunk records its error on the tunnel and sends SIGINT, leaving the rest of the state alone; with no tunnel it throws; any other chunk changes nothing |
| Lifecycle.OnExit | lib/tunnel-launcher.js:148-156 | an exit of the tracked process before readiness reports the recorded error when it is non-empty, else `Could not start TestingBot Tunnel. Exit code <code> signal: <signal>` (`null` for a missing code or signal); after readiness it reports nothing; either way `started` and the tunnel are cleared, and the poll keeps running |
| Lifecycle.Kill | lib/tunnel-launcher.js:159-170 | kill fails with `no active tunnel` exactly when no tunnel is tracked; otherwise it sends SIGINT and succeeds at once |
| Lifecycle.KillThenExit | lib/tunnel-launcher.js:154-168 | a kill that succeeds sends SIGINT and reports success; once the interrupted process has exited, a second kill fails with `no active tunnel` and sends nothing |
| Lifecycle.ReadyOnlyOnObservedMarker | lib/tunnel-launcher.js:96-103 | among all events, readiness is reported, and `started` turns true, only on a tick that finds the readiness path while the poll runs |
| Lifecycle.StaleMarkerRemoved | lib/tunnel-launcher.js:85-91 | a readiness file left from before that the launcher may delete never satisfies the first poll of a new launch |
| Lifecycle.EventPreservesErrorsClassified | lib/tunnel-launcher.js:118-125 | every event keeps the tunnel's recorded error a non-empty fatal text |
| Lifecycle.RunPreservesErrorsClassified | lib/tunnel-launcher.js:108 | a launch starts the new tunnel with no recorded error |
| Lifecycle.EventFailuresKnown | lib/tunnel-launcher.js:150-152 | every failure an event reports is a classified text or the exit-code message |
| Lifecycle.ReplayFailuresKnown | lib/tunnel-launcher.js:43-157 | along any sequence of events, every failure reported to `run`'s callback is the missing jar, the exit-code message, or a classified stderr text |
| Lifecycle.DownloadAndRun | lib/tunnel-launcher.js:172-185 | missing options stand for `{}`; a download error is passed to the callback and nothing is launched; otherwise `run` follows with the downloaded jar present |
| Lifecycle.DownloadAndRunNeverMissesJar | lib/tunnel-launcher.js:44-45 | within `downloadAndRun` the missing-jar error cannot occur: the chain either reports the prefixed download error or spawns the tunnel |
| Scenarios.WrongVersionUrl | lib/tunnel-launcher.js:22-25 | version `wrong` is fetched from `https://testingbot.com/tunnel/testingbot-tunnel-wrong.jar` |
| Scenarios.NotFoundMessage | lib/downloader.js:17 | a 404 yields `Could not download <url>, statusCode: 404` |
| Scenarios.WrongVersionFails | test/tunnel-launcher_test.js:105-111 | version `wrong` with a 404 answer fails with exactly the message the test expects, and nothing is launched |
| Scenarios.InvalidCredentialsFails | test/tunnel-launcher_test.js:113-120 | a stderr chunk with `error code : 401`, then the exit, fails the launch with the invalid-credentials message after one SIGINT |
| Scenarios.KillWithoutTunnel | test/tunnel-launcher_test.js:98-103 | kill before any launch fails with `no active tunnel` |
| Scenarios.NullOptionStillFlagged | lib/tunnel-launcher.js:77-82 | `debug: null` still yields a bare `--debug`; the test at test/tunnel-launcher_test.js:133-134 expects it omitted |
| Scenarios.TrueOptionCarriesValue | lib/tunnel-launcher.js:77-79 | `debug: true` yields `--debug` followed by the value `true`, not a bare switch |
| Scenarios.NoNameRemapping | lib/tunnel-launcher.js:72-83 | `tunnelIdentifier` yields `--tunnelIdentifier`, and no `--tunnel-identifier` as the tests expect |
| Scenarios.FatalChunkThenMarkerStillReady | lib/tunnel-launcher.js:96-125 | after a fatal chunk, a readiness file seen before the exit still reports the launch ready |
| Scenarios.ExitBeforeTickResolvesTwice | lib/tunnel-launcher.js:96-156 | the tunnel writes its readiness file and exits before the next tick: `run`'s callback is invoked twice, first with the exit error, then ready with no tunnel |
| Scenarios.PinnedStaleFileReadyAtOnce | lib/tunnel-launcher.js:85-103 | a stale readiness file the launcher may not delete survives `run`, and the first tick reports the new tunnel ready |
| Scenarios.StaleStartedSilencesNextExit | lib/tunnel-launcher.js:43-156 | after the double report, the next launch starts with `started` already set, and an exit before readiness followed by a tick reports nothing |
| Scenarios.FatalChunkAfterExitThrows | lib/tunnel-launcher.js:118-155 | a fatal stderr chunk that arrives after the exit handler cleared the tunnel makes the handler throw |

## Left out

- The `java` presence probe (`spawn('java')` and its error callback) is left
  out. It is an external process whose only effect is an extra callback.
- Timers and interleavings are not modelled:
  - A tick and its `fs.stat` callback are one atomic event.
  - Overlapping stats, and the relative order of stat callbacks, stderr and
    exit, are not modelled beyond the event sequences themselves.
- Overlapping launches are not modelled. A second `run` overwrites the
  tracked tunnel and restarts the single modelled poll. The earlier
  process's later events, and a second timer, are not represented.
- Lifecycle.OnExit: an exit with no tracked tunnel is treated as no event. In
  the source, it could come from an earlier, overwritten process, and if
  `started` is false it would throw.
- The once-guard that `async.waterfall` puts around its step and final
  callbacks in `downloadAndRun` (lib/tunnel-launcher.js:181-184) is not
  modelled. The `async` library is not part of this model. `Resolve`
  effects are calls of `run`'s own callback. What a second such call does
  inside `downloadAndRun` is left open.
- `close(cb)` waiting for the 'close' event is left out. Only its SIGINT is
  modelled, as the `Interrupt` effect.
- Verbose logging, stdout handling and the "is available for download" notice
  are left out. They only log.
- `toLowerCase` lowers ASCII letters only. Full Unicode case mapping is not
  modelled.
- Numbers are integers. NaN, `-0` and fractions are not modelled, and neither
  are object- or array-valued options.
- Js.ToJsString: every integer renders as plain decimal digits. JavaScript
  switches to exponent form from 1e21 on (`${1e21}` is `1e+21`), and
  integers beyond 2^53 are not exact JavaScript numbers; neither is
  modelled, so a `tunnelVersion` of that size names a different jar here.
- `path.normalize`/`path.join` are modelled as `dir + "/" + name`.
  Normalisation of a version containing `/` or `..` is not modelled.
- The arguments keep option values as values. Their conversion to text when
  the process is spawned is not modelled.
- Downloader.Get: every modelled transfer ends with one callback. A
  transfer whose response stops part-way without an error (the server
  closes cleanly, so neither `'finish'` nor `'error'` fires) never calls
  back, and that case is not modelled. A second callback (a write error
  after `finish`, say) is not modelled either, and neither are the bytes of
  the body.
- The functions that the tests call but that are absent from the launcher's
  code are left out: `createArgs` with its name table, `parseJavaVersion`,
  `validateJavaVersion`, `checkJava`, `killAsync`, `downloadAndRunAsync`.
  The `build/` output they come from is not part of this model.

=== FILE: arguments.dfy ===
/** The argument vector `run` hands to `java`: the jar, the credentials, one
    flag per forwarded option, and the readiness-file flag. Entries are the
    raw values pushed onto the array, so an option's value appears as
    itself. */
module Arguments {
  import opened Js

  const ReadyFileName := "testingbot.ready"

  /** `path.join(os.tmpdir(), 'testingbot.ready')`. */
  function ReadyFile(tmpDir: string): string {
    tmpDir + "/" + ReadyFileName
  }

  /** Keys the generic option pass skips. */
  predicate IsReserved(key: string) {
    key == "apiKey" || key == "apiSecret" || key == "verbose" || key == "tunnelVersion"
  }

  function Flag(key: string): Value {
    Str("--" + key)
  }

  /** What one options entry contributes to the generic pass: nothing for a
      reserved key; otherwise its flag, then its value when that is truthy. */
  function EntryArgs(entry: (string, Value)): (r: seq<Value>)
    ensures r == [] <==> IsReserved(entry.0)
    ensures r != [] ==> r[0] == Flag(entry.0) && (|r| == 2 <==> Truthy(entry.1)) && |r| <= 2
    ensures |r| == 2 ==> r[1] == entry.1
  {
    if IsReserved(entry.0) then []
    else [Flag(entry.0)] + (if Truthy(entry.1) then [entry.1] else [])
  }

  /** `v` can stem from `entry`: it is the entry's flag for a non-reserved
      key, or the entry's truthy value. */
  predicate FromEntry(v: Value, entry: (string, Value)) {
    (v == Flag(entry.0) && !IsReserved(entry.0)) || (v == entry.1 && Truthy(entry.1))
  }

  /** The generic pass over all entries, in enumeration order: at most two
      elements per entry. */
  function OptionArgs(opts: Options): (r: seq<Value>)
    ensures |r| <= 2 * |opts|
  {
    if opts == [] then [] else EntryArgs(opts[0]) + OptionArgs(opts[1..])
  }

  /** The option section is empty exactly when every key is reserved. */
  lemma {:induction false} OptionArgsEmptyIff(opts: Options)
    ensures OptionArgs(opts) == [] <==> forall j :: 0 <= j < |opts| ==> IsReserved(opts[j].0)
    decreases |opts|
  {
    if opts != [] {
      var rest := opts[1..];
      OptionArgsEmptyIff(rest);
      forall j | 0 <= j < |rest| ensures rest[j] == opts[j + 1] {
      }
      if forall j :: 0 <= j < |opts| ==> IsReserved(opts[j].0) {
        assert IsReserved(opts[0].0);
      }
    }
  }

  /** Every element of the option section stems from some entry: the
      section holds nothing but the flags of non-reserved keys and truthy
      values. */
  lemma {:induction false} OptionArgsFromEntries(opts: Options)
    ensures forall k :: 0 <= k < |OptionArgs(opts)| ==> exists j :: 0 <= j < |opts| && FromEntry(OptionArgs(opts)[k], opts[j])
    decreases |opts|
  {
    if opts != [] {
      var e := EntryArgs(opts[0]);
      var rest := OptionArgs(opts[1..]);
      OptionArgsFromEntries(opts[1..]);
      var all := OptionArgs(opts);
      assert all == e + rest;
      forall k | 0 <= k < |all| ensures exists j :: 0 <= j < |opts| && FromEntry(all[k], opts[j]) {
        if k < |e| {
          assert all[k] == e[k];
          assert FromEntry(all[k], opts[0]);
        } else {
          assert all[k] == rest[k - |e|];
          var j :| 0 <= j < |opts[1..]| && FromEntry(rest[k - |e|], opts[1..][j]);
          assert opts[1..][j] == opts[j + 1];
        }
      }
    } else {
      assert OptionArgs(opts) == [];
    }
  }

  /** The credentials, each only when truthy: key first, then secret. */
  function CredentialArgs(opts: Options): (r: seq<Value>)
    ensures |r| <= 2 && forall k :: 0 <= k < |r| ==> Truthy(r[k])
    ensures |r| == (if Truthy(Lookup(opts, "apiKey")) then 1 else 0) + (if Truthy(Lookup(opts, "apiSecret")) then 1 else 0)
    ensures Truthy(Lookup(opts, "apiKey")) ==> r[0] == Lookup(opts, "apiKey")
    ensures Truthy(Lookup(opts, "apiSecret")) ==> r[|r| - 1] == Lookup(opts, "apiSecret")
  {
    var key := Lookup(opts, "apiKey");
    var secret := Lookup(opts, "apiSecret");
    (if Truthy(key) then [key] else []) + (if Truthy(secret) then [secret] else [])
  }

  /** The whole vector: `-jar` and the jar first, the readiness-file pair
      last, the credentials and the option section in between. */
  function LaunchArgs(location: string, tmpDir: string, opts: Options): (r: seq<Value>)
    ensures |r| >= 4 && r[0] == Str("-jar") && r[1] == Str(location)
    ensures r[|r| - 2] == Str("-f") && r[|r| - 1] == Str(ReadyFile(tmpDir))
  {
    [Str("-jar"), Str(location)] + CredentialArgs(opts) + OptionArgs(opts)
      + [Str("-f"), Str(ReadyFile(tmpDir))]
  }

  /** The generic pass distributes over concatenation: entries are handled
      one after another in enumeration order, independently of each other. */
  lemma {:induction false} OptionArgsAppend(a: Options, b: Options)
    ensures OptionArgs(a + b) == OptionArgs(a) + OptionArgs(b)
    decreases |a|
  {
    if a == [] {
      assert a + b == b;
    } else {
      assert (a + b)[0] == a[0];
      assert (a + b)[1..] == a[1..] + b;
      OptionArgsAppend(a[1..], b);
    }
  }

  /** `run`'s loop over the options: push a flag per non-reserved key, and
      its value after it when the value is truthy. */
  method OptionPass(opts: Options) returns (out: seq<Value>)
    ensures out == OptionArgs(opts)
  {
    out := [];
    var i := 0;
    while i < |opts|
      invariant 0 <= i <= |opts|
      invariant out == OptionArgs(opts[..i])
    {
      var (name, value) := opts[i];
      if !IsReserved(name) {
        if Truthy(value) {
          out := out + [Flag(name), value];
        } else {
          out := out + [Flag(name)];
        }
      }
      OptionArgsAppend(opts[..i], [opts[i]]);
      assert opts[..i + 1] == opts[..i] + [opts[i]];
      i := i + 1;
    }
    assert opts[..i] == opts;
  }

  /** `run`'s argument construction: `-jar` and the location, the truthy
      credentials, the option pass, and finally the readiness-file pair. */
  method BuildArgs(location: string, tmpDir: string, opts: Options) returns (args: seq<Value>)
    ensures args == LaunchArgs(location, tmpDir, opts)
    ensures |args| >= 4 && args[0] == Str("-jar") && args[1] == Str(location)
    ensures args[|args| - 2] == Str("-f") && args[|args| - 1] == Str(ReadyFile(tmpDir))
  {
    var credentials := [];
    var key := Lookup(opts, "apiKey");
    if Truthy(key) {
      credentials := credentials + [key];
    }
    var secret := Lookup(opts, "apiSecret");
    if Truthy(secret) {
      credentials := credentials + [secret];
    }
    assert credentials == CredentialArgs(opts);
    var rest := OptionPass(opts);
    args := [Str("-jar"), Str(location)] + credentials + rest + [Str("-f"), Str(ReadyFile(tmpDir))];
  }

  /** The credentials sit right after `-jar <location>`, key before secret,
      each present exactly when truthy. */
  lemma CredentialPlacement(location: string, tmpDir: string, opts: Options)
    ensures var args := LaunchArgs(location, tmpDir, opts);
      var key := Lookup(opts, "apiKey");
      var secret := Lookup(opts, "apiSecret");
      && (Truthy(key) ==> args[2] == key)
      && (Truthy(secret) ==> args[if Truthy(key) then 3 else 2] == secret)
      && (!Truthy(key) && !Truthy(secret) ==> args[2..] == OptionArgs(opts) + [Str("-f"), Str(ReadyFile(tmpDir))])
  {
    var head := [Str("-jar"), Str(location)];
    var tail := OptionArgs(opts) + [Str("-f"), Str(ReadyFile(tmpDir))];
    assert LaunchArgs(location, tmpDir, opts) == head + CredentialArgs(opts) + tail;
    CredentialSlots(head, CredentialArgs(opts), tail, Lookup(opts, "apiKey"), Lookup(opts, "apiSecret"));
  }

  /** Where one or two truthy credentials land after a two-element head. */
  lemma CredentialSlots(head: seq<Value>, c: seq<Value>, tail: seq<Value>, key: Value, secret: Value)
    requires |head| == 2
    requires |c| == (if Truthy(key) then 1 else 0) + (if Truthy(secret) then 1 else 0)
    requires Truthy(key) ==> c[0] == key
    requires Truthy(secret) ==> c[|c| - 1] == secret
    ensures var args := head + c + tail;
      && (Truthy(key) ==> args[2] == key)
      && (Truthy(secret) ==> args[if Truthy(key) then 3 else 2] == secret)
      && (!Truthy(key) && !Truthy(secret) ==> args[2..] == tail)
  {
    var args := head + c + tail;
    if c == [] {
      assert args[2..] == tail;
    }
  }

  /** Entry `i`'s contribution sits in the generic section right after the
      contributions of the entries before it: flags come out in
      enumeration order, each immediately followed by its value exactly when
      the value is truthy. */
  lemma EntryPlacement(opts: Options, i: nat)
    requires i < |opts|
    ensures var p := |OptionArgs(opts[..i])|; var e := EntryArgs(opts[i]);
      p + |e| <= |OptionArgs(opts)| && OptionArgs(opts)[p..p + |e|] == e
  {
    assert opts == opts[..i] + ([opts[i]] + opts[i + 1..]);
    OptionArgsAppend(opts[..i], [opts[i]] + opts[i + 1..]);
    OptionArgsAppend([opts[i]], opts[i + 1..]);
    assert OptionArgs([opts[i]]) == EntryArgs(opts[i]) + OptionArgs([]);
  }

  /** No value looks like a flag: every string value lacks the `--` prefix. */
  predicate NoFlagLikeValues(opts: Options) {
    forall i :: 0 <= i < |opts| ==> !(opts[i].1.Str? && |opts[i].1.s| >= 2 && opts[i].1.s[..2] == "--")
  }

  lemma FlagInjective(a: string, b: string)
    requires Flag(a) == Flag(b)
    ensures a == b
  {
    assert a == Flag(a).s[2..];
  }

  /** Some entry has the key `k`. */
  predicate HasKey(opts: Options, k: string) {
    exists i :: 0 <= i < |opts| && opts[i].0 == k
  }

  lemma HasKeyCons(opts: Options, k: string)
    requires opts != []
    ensures HasKey(opts, k) <==> opts[0].0 == k || HasKey(opts[1..], k)
  {
    if HasKey(opts, k) {
      var i :| 0 <= i < |opts| && opts[i].0 == k;
      if i > 0 {
        assert opts[1..][i - 1].0 == k;
      }
    }
    if HasKey(opts[1..], k) {
      var i :| 0 <= i < |opts[1..]| && opts[1..][i].0 == k;
      assert opts[i + 1].0 == k;
    }
  }

  /** Both side conditions carry over from a list of options to its tail. */
  lemma TailConditions(opts: Options)
    requires opts != []
    ensures NoFlagLikeValues(opts) ==> NoFlagLikeValues(opts[1..])
    ensures DistinctKeys(opts) ==> DistinctKeys(opts[1..]) && !HasKey(opts[1..], opts[0].0)
  {
    var rest := opts[1..];
    forall i | 0 <= i < |rest| ensures rest[i] == opts[i + 1] {
    }
  }

  /** One entry holds `--k` once when its key is the non-reserved `k`, and
      otherwise not at all, provided its value does not look like a flag. */
  lemma EntryFlagCount(entry: (string, Value), k: string)
    requires !(entry.1.Str? && |entry.1.s| >= 2 && entry.1.s[..2] == "--")
    ensures multiset(EntryArgs(entry))[Flag(k)] == if !IsReserved(k) && entry.0 == k then 1 else 0
  {
    assert Flag(k) != entry.1;
    if entry.0 != k && Flag(entry.0) == Flag(k) {
      FlagInjective(entry.0, k);
    }
  }

  /** When no value looks like a flag, `--k` appears in the generic section
      exactly when some entry has the non-reserved key `k`: reserved keys
      never yield a flag, and every other key does. */
  lemma {:induction false} FlagPresentIff(opts: Options, k: string)
    requires NoFlagLikeValues(opts)
    ensures Flag(k) in OptionArgs(opts) <==> !IsReserved(k) && HasKey(opts, k)
    decreases |opts|
  {
    if opts != [] {
      var e := EntryArgs(opts[0]);
      var rest := opts[1..];
      TailConditions(opts);
      FlagPresentIff(rest, k);
      HasKeyCons(opts, k);
      EntryFlagCount(opts[0], k);
      assert OptionArgs(opts) == e + OptionArgs(rest);
      assert Flag(k) in e <==> multiset(e)[Flag(k)] > 0;
    }
  }

  /** With distinct keys and no flag-like values, every non-reserved key
      yields exactly one `--key` and every other string none. */
  lemma {:induction false} FlagCount(opts: Options, k: string)
    requires DistinctKeys(opts) && NoFlagLikeValues(opts)
    ensures multiset(OptionArgs(opts))[Flag(k)] == if !IsReserved(k) && HasKey(opts, k) then 1 else 0
    decreases |opts|
  {
    if opts != [] {
      var e := EntryArgs(opts[0]);
      var rest := opts[1..];
      TailConditions(opts);
      FlagCount(rest, k);
      HasKeyCons(opts, k);
      EntryFlagCount(opts[0], k);
      assert OptionArgs(opts) == e + OptionArgs(rest);
      assert multiset(OptionArgs(opts)) == multiset(e) + multiset(OptionArgs(rest));
    }
  }
}

=== FILE: artifact.dfy ===
/** The artifact part of `download(options, callback)`: where the tunnel jar
    lives, where it is fetched from, and when the cached copy is reused. */
module Artifact {
  import opened Js
  import opened Downloader

  const DownloadBase := "https://testingbot.com/tunnel/"
  const DefaultJarName := "testingbot-tunnel.jar"
  const VersionedJarPrefix := "testingbot-tunnel-"
  const JarSuffix := ".jar"
  /** A cached jar larger than this many bytes is reused without a fetch. */
  const MinCachedSize: nat := 1024
  const FetchFailurePrefix := "Could not download the tunnel from TestingBot - please check your connection. "

  /** The jar's file name for an (optional) `tunnelVersion` option value. */
  function JarName(version: Value): (r: string)
    ensures StartsWith(r, "testingbot-tunnel") && EndsWith(r, JarSuffix)
    ensures r == DefaultJarName <==> !Truthy(version)
    ensures Truthy(version) ==>
              && StartsWith(r, VersionedJarPrefix)
              && |VersionedJarPrefix| <= |r| - |JarSuffix|
              && r[|VersionedJarPrefix|..|r| - |JarSuffix|] == ToJsString(version)
  {
    if Truthy(version) then VersionedJarPrefix + ToJsString(version) + JarSuffix
    else DefaultJarName
  }

  /** Where the jar is cached and where it is downloaded from. */
  datatype Descriptor = Descriptor(location: string, url: string)

  /** `installDir` stands for the package root, the parent of the launcher's
      own directory. */
  function Describe(installDir: string, opts: Options): (d: Descriptor)
    ensures StartsWith(d.url, DownloadBase) && StartsWith(d.location, installDir + "/")
    ensures d.url[|DownloadBase|..] == d.location[|installDir| + 1..] == JarName(Lookup(opts, "tunnelVersion"))
  {
    var name := JarName(Lookup(opts, "tunnelVersion"));
    Descriptor(installDir + "/" + name, DownloadBase + name)
  }

  predicate StartsWith(s: string, prefix: string) {
    |prefix| <= |s| && s[..|prefix|] == prefix
  }

  predicate EndsWith(s: string, suffix: string) {
    |suffix| <= |s| && s[|s| - |suffix|..] == suffix
  }

  /** Without a version both the cached path and the URL end in the default
      jar name; the URL is the download base followed by that name. */
  lemma DefaultDescriptor(installDir: string, opts: Options)
    requires !Truthy(Lookup(opts, "tunnelVersion"))
    ensures EndsWith(Describe(installDir, opts).location, DefaultJarName)
    ensures Describe(installDir, opts).url == DownloadBase + DefaultJarName
  {
    var loc := Describe(installDir, opts).location;
    assert loc == installDir + "/" + DefaultJarName;
    assert loc[|loc| - |DefaultJarName|..] == DefaultJarName;
  }

  /** With version `v` both end in `testingbot-tunnel-v.jar`, and the URL is
      the download base followed by that name. */
  lemma VersionedDescriptor(installDir: string, opts: Options)
    requires Truthy(Lookup(opts, "tunnelVersion"))
    ensures var name := "testingbot-tunnel-" + ToJsString(Lookup(opts, "tunnelVersion")) + ".jar";
      EndsWith(Describe(installDir, opts).location, name)
      && Describe(installDir, opts).url == "https://testingbot.com/tunnel/" + name
  {
    var name := JarName(Lookup(opts, "tunnelVersion"));
    var loc := Describe(installDir, opts).location;
    assert loc == installDir + "/" + name;
    assert loc[|loc| - |name|..] == name;
  }

  /** Different version strings never share a jar, and no version shares the
      default jar: the cache path determines the version. */
  lemma JarNameInjective(v: Value, w: Value)
    requires JarName(v) == JarName(w)
    ensures Truthy(v) <==> Truthy(w)
    ensures Truthy(v) ==> ToJsString(v) == ToJsString(w)
  {
  }

  /** What `download` reports, whether it fetched (and from where), and the
      cached jar it leaves behind. */
  datatype DownloadStep = DownloadStep(result: Outcome, fetched: Option<string>, jar: Entry)

  /** `download`: reuse a cached jar above the size threshold, otherwise fetch
      it, wrapping any fetch error in a fixed prefix. */
  function Download(installDir: string, opts: Options, jar: Entry, response: Response): (r: DownloadStep)
    ensures r.fetched.None? <==> jar.File? && jar.size > MinCachedSize
    ensures r.fetched.None? ==> r.result == Pass && r.jar == jar
    ensures r.fetched.Some? ==>
              var d := Describe(installDir, opts);
              var g := Get(d.url, d.location, response, jar);
              && r.fetched.value == d.url
              && r.jar == g.file
              && (r.result.Fail? <==> g.err.Some?)
              && (r.result.Fail? ==> r.result.error.message == FetchFailurePrefix + g.err.value.message)
    ensures r.result.Pass? ==> r.jar.File?
  {
    if jar.File? && jar.size > MinCachedSize then DownloadStep(Pass, None, jar)
    else
      var d := Describe(installDir, opts);
      var g := Get(d.url, d.location, response, jar);
      if g.err.Some? then DownloadStep(Fail(Error(FetchFailurePrefix + g.err.value.message)), Some(d.url), g.file)
      else DownloadStep(Pass, Some(d.url), g.file)
  }

  /** Downloading again right after a download that left a large enough jar
      performs no fetch, whatever the network would answer. */
  lemma SecondDownloadUsesCache(installDir: string, opts: Options, jar: Entry, first: Response, second: Response)
    requires Download(installDir, opts, jar, first).result.Pass?
    requires Download(installDir, opts, jar, first).jar.size > MinCachedSize
    ensures var j := Download(installDir, opts, jar, first).jar;
      Download(installDir, opts, j, second) == DownloadStep(Pass, None, j)
  {
  }

  /** A fetch that succeeded with a jar at or below the threshold is not
      trusted: the next download fetches again. */
  lemma SmallJarIsRefetched(installDir: string, opts: Options, jar: Entry, first: Response, second: Response)
    requires Download(installDir, opts, jar, first).result.Pass?
    requires Download(installDir, opts, jar, first).jar.size <= MinCachedSize
    ensures var j := Download(installDir, opts, jar, first).jar;
      Download(installDir, opts, j, second).fetched == Some(Describe(installDir, opts).url)
  {
  }

  /** A fetch whose request fails after more than the threshold of the body
      was written reports the failure, but leaves a partial jar that the next
      download trusts without fetching. */
  lemma PartialJarTrustedNextTime(installDir: string, opts: Options, jar: Entry, status: nat,
                                  e: Error, bytes: nat, second: Response)
    requires !(jar.File? && jar.size > MinCachedSize)
    requires status < ErrorStatus && bytes > MinCachedSize
    ensures var first := Download(installDir, opts, jar, Responded(status, Aborted(e, bytes)));
      && first.result.Fail?
      && first.jar == File(bytes)
      && Download(installDir, opts, first.jar, second) == DownloadStep(Pass, None, File(bytes))
  {
  }

  /** Every download failure starts with the fixed connection hint. */
  lemma FetchFailureHasPrefix(installDir: string, opts: Options, jar: Entry, response: Response)
    requires Download(installDir, opts, jar, response).result.Fail?
    ensures StartsWith(Download(installDir, opts, jar, response).result.error.message, FetchFailurePrefix)
  {
    var d := Describe(installDir, opts);
    var g := Get(d.url, d.location, response, jar);
    var m := FetchFailurePrefix + g.err.value.message;
    assert m[..|FetchFailurePrefix|] == FetchFailurePrefix;
  }
}

=== FILE: classifier.dfy ===
/** The stderr handler's decision: which chunks of the tunnel's diagnostic
    output are fatal, and which error they record. */
module Classifier {
  import opened Text

  const CredentialsMarker := "error code : 401"
  const ErrorMarker := "error"
  const InvalidCredentialsMessage :=
    "Invalid credentials. Please supply the correct key/secret obtained from TestingBot.com"

  datatype Classification = Unclassified | InvalidCredentials | Fatal(line: string)

  /** The decision on an already-trimmed chunk: the credentials marker wins;
      otherwise any "error", ignoring case, makes the chunk itself the error. */
  function Classify(data: string): (c: Classification)
    ensures c == InvalidCredentials <==> Contains(data, CredentialsMarker)
    ensures c.Fatal? <==> !Contains(data, CredentialsMarker) && ContainsIgnoringCase(data, ErrorMarker)
    ensures c.Fatal? ==> c.line == data
  {
    ContainsLowerIff(data, ErrorMarker);
    if Contains(data, CredentialsMarker) then InvalidCredentials
    else if Contains(ToLower(data), ErrorMarker) then Fatal(data)
    else Unclassified
  }

  /** The handler trims the chunk before deciding. The decision is that of
      the raw chunk; only the recorded line is the trimmed one. */
  function ClassifyChunk(chunk: string): (c: Classification)
    ensures c == InvalidCredentials <==> Contains(chunk, CredentialsMarker)
    ensures c.Fatal? <==> !Contains(chunk, CredentialsMarker) && Contains(ToLower(chunk), ErrorMarker)
    ensures c.Fatal? ==> c.line == Trim(chunk)
  {
    ChunkDecisionIgnoresTrim(chunk);
    Classify(Trim(chunk))
  }

  /** The error a fatal classification records on the tunnel. */
  function ErrorText(c: Classification): (m: string)
    requires c != Unclassified
    ensures c == InvalidCredentials ==> m == InvalidCredentialsMessage
    ensures c.Fatal? ==> m == c.line
  {
    if c == InvalidCredentials then InvalidCredentialsMessage else c.line
  }

  /** The texts a recorded error can have: the fixed credentials message or a
      line that mentions "error". */
  ghost predicate IsFatalText(m: string) {
    m == InvalidCredentialsMessage || ContainsIgnoringCase(m, ErrorMarker)
  }

  /** Whatever chunk is classified as fatal, the recorded error is a
      non-empty fatal text. */
  lemma ErrorTextIsFatal(data: string)
    requires Classify(data) != Unclassified
    ensures IsFatalText(ErrorText(Classify(data)))
    ensures ErrorText(Classify(data)) != ""
  {
    if Classify(data).Fatal? {
      var i :| 0 <= i && i + |ErrorMarker| <= |data| && MatchesLowered(data, ErrorMarker, i);
    }
  }

  /** Trimming does not change which rule applies: both markers start and end
      with a letter or digit, so whether they occur is the same before and
      after the trim. */
  lemma ChunkDecisionIgnoresTrim(chunk: string)
    ensures Classify(Trim(chunk)) == InvalidCredentials <==> Contains(chunk, CredentialsMarker)
    ensures Classify(Trim(chunk)).Fatal? <==>
              !Contains(chunk, CredentialsMarker) && Contains(ToLower(chunk), ErrorMarker)
  {
    TrimKeepsContainment(chunk, CredentialsMarker);
    var t := Trim(chunk);
    TrimKeepsContainment(ToLower(chunk), ErrorMarker);
    LowerOfTrim(chunk);
    ContainsLowerIff(t, ErrorMarker);
  }

  /** Lower-casing commutes with trimming: no whitespace character is an
      upper-case letter, and lower-casing creates none. */
  lemma LowerOfTrim(s: string)
    ensures ToLower(Trim(s)) == Trim(ToLower(s))
  {
    var a := TrimStart(s);
    var b := TrimEnd(s, a, |s|);
    TrimOfLower(s);
    LowerOfSlice(s, a, b);
  }

  /** The lowered string is trimmed at the same indices as the original. */
  lemma TrimOfLower(s: string)
    ensures var a := TrimStart(s); Trim(ToLower(s)) == ToLower(s)[a..TrimEnd(s, a, |s|)]
  {
    TrimStartLower(s, 0);
    TrimEndLower(s, TrimStart(s), |s|);
  }

  lemma LowerOfSlice(s: string, a: nat, b: nat)
    requires a <= b <= |s|
    ensures ToLower(s[a..b]) == ToLower(s)[a..b]
  {
    var t := s[a..b];
    forall i | 0 <= i < |t| ensures ToLower(t)[i] == ToLower(s)[a..b][i] {
      assert t[i] == s[a + i];
    }
  }

  lemma LowerKeepsWhitespace(c: char)
    ensures IsJsWhitespace(LowerChar(c)) <==> IsJsWhitespace(c)
  {
  }

  lemma {:induction false} TrimStartLower(s: string, from: nat)
    requires from <= |s|
    ensures TrimStart(ToLower(s), from) == TrimStart(s, from)
    decreases |s| - from
  {
    if from < |s| {
      LowerKeepsWhitespace(s[from]);
      TrimStartLower(s, from + 1);
    }
  }

  lemma {:induction false} TrimEndLower(s: string, lo: nat, hi: nat)
    requires lo <= hi <= |s|
    ensures TrimEnd(ToLower(s), lo, hi) == TrimEnd(s, lo, hi)
    decreases hi
  {
    if lo < hi {
      LowerKeepsWhitespace(s[hi - 1]);
      TrimEndLower(s, lo, hi - 1);
    }
  }
}

=== FILE: downloader.dfy ===
/** The outcome rules of `downloader.get(url, {destination}, cb)`: the HTTPS
    transfer itself is replaced by an abstract `Response` describing what the
    request and the write stream reported. */
module Downloader {
  import opened Js
  import Text

  /** What the file system holds at a path: nothing, or a file of some size. */
  datatype Entry = Missing | File(size: nat)

  /** How the transfer into the destination file ended: the write stream
      finished; the write stream failed; or the request failed after the
      file was opened (a connection reset part-way through the body, say),
      leaving the bytes written so far. */
  datatype WriteOutcome = Finished(bytes: nat) | WriteFailed(err: Error) | Aborted(err: Error, bytes: nat)

  /** What `https.get` delivered: an error on the request, or a response with
      a status code whose body was piped into the destination file (the body
      only matters when the status is below 400). */
  datatype Response = RequestFailed(err: Error) | Responded(status: nat, body: WriteOutcome)

  /** The callback's two arguments, plus what is left at the destination. */
  datatype GetResult = GetResult(err: Option<Error>, destination: Option<string>, file: Entry)

  const ErrorStatus: nat := 400

  function StatusError(url: string, status: nat): Error {
    Error("Could not download " + url + ", statusCode: " + Text.NatToString(status))
  }

  /** One completion of `get`: either (error, null) or (null, destination).
      Only the write stream's error handler removes the file; the request's
      error handler leaves whatever was written. */
  function Get(url: string, dest: string, response: Response, existing: Entry): (r: GetResult)
    ensures r.err.None? <==> r.destination.Some?
    ensures r.destination.Some? ==> r.destination.value == dest
    ensures r.err.None? <==> response.Responded? && response.status < ErrorStatus && response.body.Finished?
    ensures r.err.None? ==> r.file == File(response.body.bytes)
    ensures response.RequestFailed? ==> r.err == Some(response.err) && r.file == existing
    ensures response.Responded? && response.status >= ErrorStatus ==>
              r.err == Some(StatusError(url, response.status)) && r.file == existing
    ensures response.Responded? && response.status < ErrorStatus && response.body.WriteFailed? ==>
              r.err == Some(response.body.err) && r.file == Missing
    ensures response.Responded? && response.status < ErrorStatus && response.body.Aborted? ==>
              r.err == Some(response.body.err) && r.file == File(response.body.bytes)
  {
    match response
    case RequestFailed(e) => GetResult(Some(e), None, existing)
    case Responded(status, body) =>
      if status >= ErrorStatus then GetResult(Some(StatusError(url, status)), None, existing)
      else
        match body
        case Finished(n) => GetResult(None, Some(dest), File(n))
        case WriteFailed(e) => GetResult(Some(e), None, Missing)
        case Aborted(e, n) => GetResult(Some(e), None, File(n))
  }

  /** The status error message ends with the decimal status code, from which
      the code can be read back. */
  lemma StatusErrorNamesStatus(url: string, status: nat)
    ensures var m := StatusError(url, status).message; var d := Text.NatToString(status);
      |d| <= |m| && m[|m| - |d|..] == d && Text.DigitsValue(m[|m| - |d|..]) == status
  {
    var m := StatusError(url, status).message;
    var d := Text.NatToString(status);
    assert m[|m| - |d|..] == d;
    Text.DigitsValueOfNatToString(status);
  }
}

=== FILE: js.dfy ===
/** The JavaScript values the launcher handles: option values, their
    truthiness and string conversion, errors, and the options object. */
module Js {
  import Text

  datatype Option<+T> = None | Some(value: T)

  /** An `Error` object; only its `message` is observed. */
  datatype Error = Error(message: string)

  /** A callback's error argument: `null` or an error. */
  datatype Outcome = Pass | Fail(error: Error)

  /** The primitive values an option can hold. Numbers are modelled as
      integers. */
  datatype Value = Undefined | Null | Bool(b: bool) | Num(n: int) | Str(s: string)

  /** JavaScript truthiness of a primitive: every value is truthy except the
      falsy ones, `undefined`, `null`, `false`, `0` and `""`. */
  predicate Truthy(v: Value) {
    match v
    case Undefined => false
    case Null => false
    case Bool(b) => b
    case Num(n) => n != 0
    case Str(s) => s != ""
  }

  /** The falsy primitives are exactly `undefined`, `null`, `false`, `0` and
      the empty string. */
  lemma FalsyValues(v: Value)
    ensures !Truthy(v) <==> v == Undefined || v == Null || v == Bool(false) || v == Num(0) || v == Str("")
  {
  }

  /** The conversion a template literal `${v}` applies. */
  function ToJsString(v: Value): (r: string)
    ensures v.Str? ==> r == v.s
    ensures v.Num? ==> r == Text.IntToString(v.n)
    ensures Truthy(v) ==> r != ""
  {
    match v
    case Undefined => "undefined"
    case Null => "null"
    case Bool(b) => if b then "true" else "false"
    case Num(n) => Text.IntToString(n)
    case Str(s) => s
  }

  /** An options object as its `for..in` enumeration order lists its own
      properties: one entry per key. */
  type Options = seq<(string, Value)>

  predicate DistinctKeys(opts: Options) {
    forall i, j :: 0 <= i < j < |opts| ==> opts[i].0 != opts[j].0
  }

  /** `options[key]`: the value bound to `key`, or `undefined` when the
      object has no such property. */
  function Lookup(opts: Options, key: string): (v: Value)
    ensures (forall i :: 0 <= i < |opts| ==> opts[i].0 != key) ==> v == Undefined
    ensures forall i :: 0 <= i < |opts| && opts[i].0 == key && DistinctKeys(opts) ==> v == opts[i].1
  {
    if opts == [] then Undefined
    else if opts[0].0 == key then opts[0].1
    else Lookup(opts[1..], key)
  }
}

=== FILE: lifecycle.dfy ===
/** The launcher's supervision of one tunnel process: `run` starts it, then
    the poll timer, the process's stderr and its exit drive a small state
    machine; `killTunnel` interrupts it; `downloadAndRun` chains `download`
    and `run`. Spawning, timers and the file system are replaced by the
    events and inputs they deliver. */
module Lifecycle {
  import opened Js
  import opened Downloader
  import Artifact
  import Arguments
  import Classifier
  import Text

  /** What the file system holds at the readiness-file path: nothing, a
      regular file the launcher may delete, a regular file it may not delete
      (`unlinkSync` fails, as for another user's file in a sticky temporary
      directory), or some other entry such as a directory. */
  datatype PathKind = Absent | RegularFile | PinnedFile | OtherEntry

  /** `run` leaves the readiness path empty: it is empty already, or it
      holds a regular file that the unlink removes. */
  predicate RunClears(marker: PathKind) {
    marker == Absent || marker == RegularFile
  }

  /** The spawned process as the launcher tracks it: the argument vector it
      was started with and the error recorded by the stderr handler. */
  datatype Handle = Handle(args: seq<Value>, error: Option<string>)

  /** The launcher's module-level state (`started`, `activeTunnel`), the
      readiness file, and whether the poll timer is running. */
  datatype State = State(started: bool, active: Option<Handle>, marker: PathKind, polling: bool)

  /** The state when the module is loaded: nothing launched yet. */
  function Loaded(marker: PathKind): State {
    State(false, None, marker, false)
  }

  /** What `run`'s callback receives: the active tunnel (which may already be
      gone), or an error. */
  datatype LaunchResult = Ready(tunnel: Option<Handle>) | Failed(error: Error)

  /** Observable effects of a step: spawning `java`, sending SIGINT to the
      tunnel, invoking `run`'s callback, or an exception escaping an event
      handler. */
  datatype Effect = Spawn(args: seq<Value>) | Interrupt | Resolve(result: LaunchResult) | Uncaught

  datatype Step = Step(state: State, effects: seq<Effect>)

  /** What can happen after a launch: the tunnel writes the readiness file,
      the 800 ms timer fires (together with its `fs.stat` callback), a chunk
      arrives on stderr, or the process exits with an optional code and
      signal. */
  datatype Event = MarkerWritten | PollTick | Stderr(chunk: string) | Exit(code: Option<int>, signal: Option<string>)

  const NoActiveTunnelMessage := "no active tunnel"

  function MissingJarError(location: string): Error {
    Error("Tunnel jar file is not present in " + location)
  }

  /** `${code}` / `${signal}` for values that may be null. */
  function CodeText(code: Option<int>): string {
    if code.Some? then Text.IntToString(code.value) else "null"
  }

  function SignalText(signal: Option<string>): string {
    if signal.Some? then signal.value else "null"
  }

  function ExitError(code: Option<int>, signal: Option<string>): Error {
    Error("Could not start TestingBot Tunnel. Exit code " + CodeText(code) + " signal: " + SignalText(signal))
  }

  /** `run`: refuse when the jar is missing; otherwise remove a stale
      readiness file, start the poll timer and spawn `java` with the built
      argument vector. `started` is left as it was. A failed unlink is
      ignored, so a pinned file stays where it is. */
  function Run(s: State, opts: Options, location: string, tmpDir: string, jarPresent: bool): (r: Step)
    ensures !jarPresent ==> r.state == s && r.effects == [Resolve(Failed(MissingJarError(location)))]
    ensures jarPresent ==>
              && r.effects == [Spawn(Arguments.LaunchArgs(location, tmpDir, opts))]
              && r.state.active == Some(Handle(Arguments.LaunchArgs(location, tmpDir, opts), None))
              && r.state.polling
              && r.state.started == s.started
              && (s.marker == RegularFile ==> r.state.marker == Absent)
              && (s.marker != RegularFile ==> r.state.marker == s.marker)
              && (r.state.marker == Absent <==> RunClears(s.marker))
  {
    if !jarPresent then Step(s, [Resolve(Failed(MissingJarError(location)))])
    else
      var args := Arguments.LaunchArgs(location, tmpDir, opts);
      var marker := if s.marker == RegularFile then Absent else s.marker;
      Step(State(s.started, Some(Handle(args, None)), marker, true), [Spawn(args)])
  }

  /** The tunnel creates its readiness file (a path already taken by
      something else stays as it is). */
  function OnMarkerWritten(s: State): (r: Step)
    ensures r.effects == []
    ensures r.state.marker != Absent
    ensures r.state == s.(marker := r.state.marker)
    ensures s.marker == Absent ==> r.state.marker == RegularFile
    ensures s.marker != Absent ==> r == Step(s, [])
  {
    if s.marker == Absent then Step(s.(marker := RegularFile), []) else Step(s, [])
  }

  /** A timer tick: if the poll is running and `fs.stat` finds anything at
      the readiness path, stop polling, mark the tunnel started and report it
      ready with the current `activeTunnel`. */
  function OnPoll(s: State): (r: Step)
    ensures r.state.active == s.active && r.state.marker == s.marker
    ensures (Resolve(Ready(s.active)) in r.effects) <==> s.polling && s.marker != Absent
    ensures s.polling && s.marker != Absent ==> r.effects == [Resolve(Ready(s.active))]
    ensures s.polling && s.marker != Absent ==> r.state.started && !r.state.polling
    ensures !(s.polling && s.marker != Absent) ==> r == Step(s, [])
  {
    if s.polling && s.marker != Absent then
      Step(s.(started := true, polling := false), [Resolve(Ready(s.active))])
    else Step(s, [])
  }

  /** A stderr chunk: a fatal chunk records its error on the active tunnel
      and interrupts it; a fatal chunk with no active tunnel makes the
      handler throw (it assigns to a property of `null`); any other chunk
      changes nothing. */
  function OnStderr(s: State, chunk: string): (r: Step)
    ensures Classifier.ClassifyChunk(chunk) == Classifier.Unclassified ==> r == Step(s, [])
    ensures Classifier.ClassifyChunk(chunk) != Classifier.Unclassified && s.active.Some? ==>
              && r.effects == [Interrupt]
              && r.state.active == Some(s.active.value.(error := Some(Classifier.ErrorText(Classifier.ClassifyChunk(chunk)))))
              && r.state.started == s.started && r.state.marker == s.marker && r.state.polling == s.polling
    ensures Classifier.ClassifyChunk(chunk) != Classifier.Unclassified && s.active.None? ==>
              r == Step(s, [Uncaught])
  {
    var c := Classifier.ClassifyChunk(chunk);
    if c == Classifier.Unclassified then Step(s, [])
    else if s.active.None? then Step(s, [Uncaught])
    else
      var h := s.active.value.(error := Some(Classifier.ErrorText(c)));
      Step(s.(active := Some(h)), [Interrupt])
  }

  /** The error `run` reports when the tunnel exits before it was ready: the
      recorded error if it is truthy, else the exit code and signal. */
  function ExitFailure(h: Handle, code: Option<int>, signal: Option<string>): (e: Error)
    ensures e.message != ""
    ensures h.error.Some? && h.error.value != "" ==> e.message == h.error.value
    ensures h.error.None? || h.error.value == "" ==> e == ExitError(code, signal)
  {
    if h.error.Some? && h.error.value != "" then Error(h.error.value) else ExitError(code, signal)
  }

  /** The process exits: before readiness this reports a failure; in every
      case `started` and `activeTunnel` are cleared. The poll timer is not
      stopped. With no tracked process there is no exit to observe. */
  function OnExit(s: State, code: Option<int>, signal: Option<string>): (r: Step)
    ensures s.active.Some? ==> !r.state.started && r.state.active.None?
    ensures r.state.marker == s.marker && r.state.polling == s.polling
    ensures s.active.Some? && !s.started ==>
              r.effects == [Resolve(Failed(ExitFailure(s.active.value, code, signal)))]
    ensures s.started || s.active.None? ==> r.effects == []
    ensures s.active.None? ==> r.state == s
  {
    if s.active.None? then Step(s, [])
    else
      var effects := if !s.started then [Resolve(Failed(ExitFailure(s.active.value, code, signal)))] else [];
      Step(s.(started := false, active := None), effects)
  }

  function OnEvent(s: State, e: Event): Step {
    match e
    case MarkerWritten => OnMarkerWritten(s)
    case PollTick => OnPoll(s)
    case Stderr(chunk) => OnStderr(s, chunk)
    case Exit(code, signal) => OnExit(s, code, signal)
  }

  /** Feeds a sequence of events, collecting the effects in order. */
  function Replay(s: State, events: seq<Event>): Step
    decreases |events|
  {
    if events == [] then Step(s, [])
    else
      var first := OnEvent(s, events[0]);
      var rest := Replay(first.state, events[1..]);
      Step(rest.state, first.effects + rest.effects)
  }

  /** Replaying starts by handling the first event. */
  lemma ReplayCons(s: State, e: Event, rest: seq<Event>)
    ensures var a := OnEvent(s, e); var r := Replay(a.state, rest);
      Replay(s, [e] + rest) == Step(r.state, a.effects + r.effects)
  {
    assert ([e] + rest)[0] == e;
    assert ([e] + rest)[1..] == rest;
  }

  lemma ReplayTwo(s: State, e1: Event, e2: Event)
    ensures var a := OnEvent(s, e1); var b := OnEvent(a.state, e2);
      Replay(s, [e1, e2]) == Step(b.state, a.effects + b.effects)
  {
    var a := OnEvent(s, e1);
    var b := OnEvent(a.state, e2);
    ReplayCons(s, e1, [e2]);
    ReplayCons(a.state, e2, []);
    assert [e1] + [e2] == [e1, e2];
    assert [e2] + [] == [e2];
    assert Replay(b.state, []) == Step(b.state, []);
    assert b.effects + [] == b.effects;
  }

  /** What `killTunnel`'s callback receives, and the signal it sends. */
  datatype KillReply = KillReply(result: Outcome, effects: seq<Effect>)

  /** `killTunnel`: fail with "no active tunnel" when nothing is tracked,
      otherwise send SIGINT and succeed at once, without waiting for the
      exit. The state is not touched. */
  function Kill(s: State): (r: KillReply)
    ensures r.result.Fail? <==> s.active.None?
    ensures r.result.Fail? ==> r.result.error.message == "no active tunnel" && r.effects == []
    ensures r.result.Pass? ==> r.effects == [Interrupt]
  {
    if s.active.None? then KillReply(Fail(Error(NoActiveTunnelMessage)), [])
    else KillReply(Pass, [Interrupt])
  }

  /** Killing does not wait for the exit, and does not forget the tunnel by
      itself: the tunnel is gone only once the interrupted process has
      exited, and then a second kill finds nothing to stop. */
  lemma KillThenExit(s: State, code: Option<int>, signal: Option<string>)
    requires Kill(s).result.Pass?
    ensures Kill(s).effects == [Interrupt] && Kill(s).result == Pass
    ensures Kill(OnExit(s, code, signal).state) == KillReply(Fail(Error(NoActiveTunnelMessage)), [])
  {
  }

  // ---------------------------------------------------------------------
  // Properties of the event handlers
  // ---------------------------------------------------------------------

  predicate IsReady(e: Effect) {
    e.Resolve? && e.result.Ready?
  }

  /** Readiness is reported, and `started` becomes true, only on a poll tick
      that finds the readiness path taken while the poll is running. */
  lemma ReadyOnlyOnObservedMarker(s: State, e: Event)
    ensures (exists k :: 0 <= k < |OnEvent(s, e).effects| && IsReady(OnEvent(s, e).effects[k]))
            <==> e == PollTick && s.polling && s.marker != Absent
    ensures !s.started && OnEvent(s, e).state.started ==> e == PollTick && s.polling && s.marker != Absent
  {
    if e == PollTick && s.polling && s.marker != Absent {
      assert IsReady(OnEvent(s, e).effects[0]);
    }
  }

  /** A readiness file left by an earlier run that the launcher may delete
      never satisfies the new launch's first poll: `run` removes it. A file
      it may not delete, and anything that is not a regular file, survive
      (see `Scenarios.PinnedStaleFileReadyAtOnce`). */
  lemma StaleMarkerRemoved(s: State, opts: Options, location: string, tmpDir: string)
    requires RunClears(s.marker)
    ensures var launched := Run(s, opts, location, tmpDir, true).state;
      OnPoll(launched) == Step(launched, [])
  {
  }

  /** The recorded error is always a fatal text. */
  ghost predicate ErrorsClassified(s: State) {
    s.active.Some? && s.active.value.error.Some? ==>
      Classifier.IsFatalText(s.active.value.error.value) && s.active.value.error.value != ""
  }

  lemma EventPreservesErrorsClassified(s: State, e: Event)
    requires ErrorsClassified(s)
    ensures ErrorsClassified(OnEvent(s, e).state)
  {
    if e.Stderr? && Classifier.ClassifyChunk(e.chunk) != Classifier.Unclassified {
      Classifier.ErrorTextIsFatal(Text.Trim(e.chunk));
    }
  }

  lemma RunPreservesErrorsClassified(s: State, opts: Options, location: string, tmpDir: string, jarPresent: bool)
    requires ErrorsClassified(s)
    ensures ErrorsClassified(Run(s, opts, location, tmpDir, jarPresent).state)
  {
  }

  /** Every failure `run` reports is one of three kinds: the missing jar,
      the exit code and signal, or a fatal text seen on stderr. */
  ghost predicate KnownFailure(e: Error, location: string) {
    || e == MissingJarError(location)
    || (exists code, signal :: e == ExitError(code, signal))
    || (Classifier.IsFatalText(e.message) && e.message != "")
  }

  ghost predicate FailuresKnown(effects: seq<Effect>, location: string) {
    forall k :: 0 <= k < |effects| && effects[k].Resolve? && effects[k].result.Failed? ==>
      KnownFailure(effects[k].result.error, location)
  }

  lemma EventFailuresKnown(s: State, e: Event, location: string)
    requires ErrorsClassified(s)
    ensures FailuresKnown(OnEvent(s, e).effects, location)
  {
    if e.Exit? && s.active.Some? && !s.started {
      var f := ExitFailure(s.active.value, e.code, e.signal);
      if f == ExitError(e.code, e.signal) {
        assert KnownFailure(f, location);
      }
    }
  }

  /** Along any sequence of events from a state whose recorded error is
      classified, every reported failure is a known kind. */
  lemma {:induction false} ReplayFailuresKnown(s: State, events: seq<Event>, location: string)
    requires ErrorsClassified(s)
    ensures FailuresKnown(Replay(s, events).effects, location)
    ensures ErrorsClassified(Replay(s, events).state)
    decreases |events|
  {
    if events != [] {
      var first := OnEvent(s, events[0]);
      EventFailuresKnown(s, events[0], location);
      EventPreservesErrorsClassified(s, events[0]);
      ReplayFailuresKnown(first.state, events[1..], location);
      var rest := Replay(first.state, events[1..]);
      var all := first.effects + rest.effects;
      forall k | 0 <= k < |all| && all[k].Resolve? && all[k].result.Failed?
        ensures KnownFailure(all[k].result.error, location)
      {
        if k >= |first.effects| {
          assert all[k] == rest.effects[k - |first.effects|];
        }
      }
    }
  }

  // ---------------------------------------------------------------------
  // downloadAndRun
  // ---------------------------------------------------------------------

  /** The inputs `downloadAndRun` takes from its environment: the package
      root, the temporary directory, the cached jar, and what the network
      would answer to a fetch. */
  datatype Env = Env(installDir: string, tmpDir: string, jar: Entry, response: Response)

  datatype Launch = Launch(step: Step, download: Artifact.DownloadStep)

  /** `downloadAndRun`: a missing options object stands for `{}`; `download`
      runs first and its error ends the chain; otherwise `run` follows, with
      the jar that `download` left behind. */
  function DownloadAndRun(s: State, options: Option<Options>, env: Env): (r: Launch)
    ensures var opts := if options.Some? then options.value else [];
      && r.download == Artifact.Download(env.installDir, opts, env.jar, env.response)
      && (r.download.result.Fail? ==> r.step == Step(s, [Resolve(Failed(r.download.result.error))]))
      && (r.download.result.Pass? ==>
            r.step == Run(s, opts, Artifact.Describe(env.installDir, opts).location, env.tmpDir, true))
  {
    var opts := if options.Some? then options.value else [];
    var d := Artifact.Download(env.installDir, opts, env.jar, env.response);
    if d.result.Fail? then Launch(Step(s, [Resolve(Failed(d.result.error))]), d)
    else
      var location := Artifact.Describe(env.installDir, opts).location;
      Launch(Run(s, opts, location, env.tmpDir, d.jar != Missing), d)
  }

  /** After `download` succeeds the jar is on disk, so within
      `downloadAndRun` the missing-jar error never fires: the chain either
      reports the download error, which carries the fetch-failure prefix, or
      spawns the tunnel. */
  lemma DownloadAndRunNeverMissesJar(s: State, options: Option<Options>, env: Env)
    ensures var r := DownloadAndRun(s, options, env);
      || (r.download.result.Fail?
          && r.step.effects == [Resolve(Failed(r.download.result.error))]
          && Artifact.StartsWith(r.download.result.error.message, Artifact.FetchFailurePrefix))
      || (|r.step.effects| == 1 && r.step.effects[0].Spawn?)
  {
    var opts := if options.Some? then options.value else [];
    var r := DownloadAndRun(s, options, env);
    if r.download.result.Fail? {
      Artifact.FetchFailureHasPrefix(env.installDir, opts, env.jar, env.response);
    }
  }
}

=== FILE: scenarios.dfy ===
/** Concrete runs of the launcher model: the error strings the launcher's
    tests expect, and the places where the launcher's code behaves
    differently from what its tests expect. */
module Scenarios {
  import opened Js
  import opened Downloader
  import Artifact
  import Arguments
  import Classifier
  import Text
  import opened Lifecycle

  /** The URL the launcher's tests expect for version `wrong`,
      `https://testingbot.com/tunnel/testingbot-tunnel-wrong.jar`, split at
      the places where the launcher joins its parts. */
  const WrongVersionJarUrl := "https://testingbot.com/tunnel/" + "testingbot-tunnel-" + "wrong" + ".jar"

  /** The message the launcher's tests expect for version `wrong`, split in
      the same way. */
  const WrongVersionMessage :=
    "Could not download the tunnel from TestingBot - please check your connection. "
    + "Could not download " + WrongVersionJarUrl + ", statusCode: 404"

  lemma WrongVersionUrl(installDir: string)
    ensures Artifact.Describe(installDir, [("tunnelVersion", Str("wrong"))]).url == WrongVersionJarUrl
  {
    var opts := [("tunnelVersion", Str("wrong"))];
    assert Lookup(opts, "tunnelVersion") == Str("wrong");
    Artifact.VersionedDescriptor(installDir, opts);
  }

  lemma NotFoundMessage(url: string)
    ensures StatusError(url, 404).message == "Could not download " + url + ", statusCode: 404"
  {
    assert Text.NatToString(4) == "4";
    assert Text.NatToString(40) == "40";
    assert Text.NatToString(404) == "404";
  }

  /** The download step for version `wrong` when the server answers 404
      fails with the prefixed status error. */
  lemma WrongVersionDownload(installDir: string, jar: Entry, body: WriteOutcome)
    requires !(jar.File? && jar.size > Artifact.MinCachedSize)
    ensures Artifact.Download(installDir, [("tunnelVersion", Str("wrong"))], jar, Responded(404, body)).result
      == Fail(Error(WrongVersionMessage))
  {
    var opts := [("tunnelVersion", Str("wrong"))];
    var url := WrongVersionJarUrl;
    WrongVersionUrl(installDir);
    NotFoundMessage(url);
    var d := Artifact.Describe(installDir, opts);
    var g := Get(d.url, d.location, Responded(404, body), jar);
    assert g.err == Some(StatusError(url, 404));
    var dl := Artifact.Download(installDir, opts, jar, Responded(404, body));
    assert dl.result.error.message == Artifact.FetchFailurePrefix + StatusError(url, 404).message;
    assert WrongVersionMessage == Artifact.FetchFailurePrefix + ("Could not download " + url + ", statusCode: 404");
  }

  /** Asking for version `wrong` when the server answers 404 fails the
      launch with the exact message the tests expect, and nothing is
      spawned. */
  lemma WrongVersionFails(s: State, installDir: string, tmpDir: string, jar: Entry, body: WriteOutcome)
    requires !(jar.File? && jar.size > Artifact.MinCachedSize)
    ensures var r := DownloadAndRun(s, Some([("tunnelVersion", Str("wrong"))]), Env(installDir, tmpDir, jar, Responded(404, body)));
      r.step == Step(s, [Resolve(Failed(Error(WrongVersionMessage)))])
  {
    WrongVersionDownload(installDir, jar, body);
  }

  /** A stderr chunk carrying the 401 marker, followed by the exit it
      provokes, fails the launch with the invalid-credentials message. */
  lemma InvalidCredentialsFails(s: State, opts: Options, location: string, tmpDir: string,
                                chunk: string, code: Option<int>, signal: Option<string>)
    requires !s.started
    requires Text.Contains(chunk, Classifier.CredentialsMarker)
    ensures var launched := Run(s, opts, location, tmpDir, true).state;
      Replay(launched, [Stderr(chunk), Exit(code, signal)]).effects
        == [Interrupt, Resolve(Failed(Error(Classifier.InvalidCredentialsMessage)))]
  {
    var launched := Run(s, opts, location, tmpDir, true).state;
    ReplayTwo(launched, Stderr(chunk), Exit(code, signal));
    var afterChunk := OnStderr(launched, chunk);
    assert afterChunk.state.active.value.error == Some(Classifier.InvalidCredentialsMessage);
    assert Classifier.InvalidCredentialsMessage != "";
  }

  /** `killTunnel` before any launch fails with "no active tunnel". */
  lemma KillWithoutTunnel(marker: PathKind)
    ensures Kill(Loaded(marker)) == KillReply(Fail(Error("no active tunnel")), [])
  {
  }

  /** The two sections of the argument vector for `debug: null` with fake
      credentials. */
  lemma NullOptionSections()
    ensures var opts := [("apiKey", Str("fake")), ("apiSecret", Str("fake")), ("debug", Null)];
      && Arguments.CredentialArgs(opts) == [Str("fake"), Str("fake")]
      && Arguments.OptionArgs(opts) == [Str("--debug")]
  {
    var opts := [("apiKey", Str("fake")), ("apiSecret", Str("fake")), ("debug", Null)];
    assert Lookup(opts, "apiKey") == Str("fake");
    assert Lookup(opts, "apiSecret") == Str("fake");
    NullDebugFlag();
    assert opts[2..] == [("debug", Null)];
    Arguments.OptionArgsAppend(opts[..2], opts[2..]);
    Arguments.OptionArgsEmptyIff(opts[..2]);
    assert opts[..2][0].0 == "apiKey" && opts[..2][1].0 == "apiSecret";
    assert opts[..2] + opts[2..] == opts;
  }

  lemma NullDebugFlag()
    ensures Arguments.OptionArgs([("debug", Null)]) == [Str("--debug")]
  {
    var opts := [("debug", Null)];
    assert opts[1..] == [];
    assert !Arguments.IsReserved("debug");
    assert "--" + "debug" == "--debug";
  }

  /** A falsy option is not omitted: `debug: null` still produces a bare
      `--debug`, whereas the tests expect it to be left out. */
  lemma NullOptionStillFlagged(location: string, tmpDir: string)
    ensures Arguments.LaunchArgs(location, tmpDir, [("apiKey", Str("fake")), ("apiSecret", Str("fake")), ("debug", Null)])
      == [Str("-jar"), Str(location), Str("fake"), Str("fake"), Str("--debug"), Str("-f"), Str(Arguments.ReadyFile(tmpDir))]
  {
    NullOptionSections();
  }

  /** A `true` option is not a bare switch: its value is pushed after the
      flag like any other truthy value. */
  lemma TrueOptionCarriesValue()
    ensures Arguments.OptionArgs([("debug", Bool(true))]) == [Str("--debug"), Bool(true)]
  {
    var opts := [("debug", Bool(true))];
    assert opts[1..] == [];
    assert !Arguments.IsReserved("debug");
    assert "--" + "debug" == "--debug";
  }

  /** Option names are passed through verbatim: `tunnelIdentifier` becomes
      `--tunnelIdentifier`, and the option section holds no
      `--tunnel-identifier`, which the tests expect. */
  lemma NoNameRemapping(location: string, tmpDir: string)
    ensures var opts := [("tunnelIdentifier", Str("my-tunnel"))];
      && Arguments.LaunchArgs(location, tmpDir, opts)
           == [Str("-jar"), Str(location), Str("--tunnelIdentifier"), Str("my-tunnel"), Str("-f"), Str(Arguments.ReadyFile(tmpDir))]
      && Str("--tunnel-identifier") !in Arguments.OptionArgs(opts)
  {
    var opts := [("tunnelIdentifier", Str("my-tunnel"))];
    assert opts[1..] == [];
    assert Lookup(opts, "apiKey") == Undefined;
    assert Lookup(opts, "apiSecret") == Undefined;
    assert Arguments.CredentialArgs(opts) == [];
    assert !Arguments.IsReserved("tunnelIdentifier");
    assert "--" + "tunnelIdentifier" == "--tunnelIdentifier";
    assert Arguments.OptionArgs(opts) == [Str("--tunnelIdentifier"), Str("my-tunnel")];
    assert "--tunnelIdentifier"[8] != "--tunnel-identifier"[8];
    assert |"my-tunnel"| != |"--tunnel-identifier"|;
  }

  /** A fatal chunk does not stop the poll: if the readiness file appears
      before the interrupted tunnel has exited, the launch is still reported
      ready. */
  lemma FatalChunkThenMarkerStillReady(s: State, opts: Options, location: string, tmpDir: string, chunk: string)
    requires RunClears(s.marker)
    requires Text.Contains(chunk, Classifier.CredentialsMarker)
    ensures var launched := Run(s, opts, location, tmpDir, true).state;
      var r := Replay(launched, [Stderr(chunk), MarkerWritten, PollTick]);
      r.effects == [Interrupt, Resolve(Ready(r.state.active))] && r.state.started
  {
    FatalChunkMarkerTickFrom(Run(s, opts, location, tmpDir, true).state, chunk);
  }

  /** The same trace from any launch whose poll is running and whose
      readiness path is empty. */
  lemma FatalChunkMarkerTickFrom(t: State, chunk: string)
    requires t.active.Some? && t.polling && t.marker == Absent
    requires Text.Contains(chunk, Classifier.CredentialsMarker)
    ensures var r := Replay(t, [Stderr(chunk), MarkerWritten, PollTick]);
      r.effects == [Interrupt, Resolve(Ready(r.state.active))] && r.state.started
  {
    Lifecycle.ReplayCons(t, Stderr(chunk), [MarkerWritten, PollTick]);
    assert [Stderr(chunk)] + [MarkerWritten, PollTick] == [Stderr(chunk), MarkerWritten, PollTick];
    ReplayTwo(OnEvent(t, Stderr(chunk)).state, MarkerWritten, PollTick);
  }

  /** `run` ignores a failed unlink. A stale readiness file that the launcher
      may not delete survives the launch, and the very first tick reports the
      new tunnel ready before that tunnel has written anything. */
  lemma PinnedStaleFileReadyAtOnce(s: State, opts: Options, location: string, tmpDir: string)
    requires s.marker == PinnedFile
    ensures var launched := Run(s, opts, location, tmpDir, true).state;
      var r := OnPoll(launched);
      && launched.marker == PinnedFile
      && r.effects == [Resolve(Ready(Some(Handle(Arguments.LaunchArgs(location, tmpDir, opts), None))))]
      && r.state.started
  {
  }

  /** A launched tunnel that has not reported yet, with the poll running
      and no readiness file. */
  predicate FreshLaunch(t: State) {
    !t.started && t.active.Some? && t.polling && t.marker == Absent
  }

  lemma LaunchIsFresh(s: State, opts: Options, location: string, tmpDir: string)
    requires !s.started && RunClears(s.marker)
    ensures FreshLaunch(Run(s, opts, location, tmpDir, true).state)
  {
  }

  /** The event trace behind the double report, from any fresh launch. */
  lemma MarkerExitTickFrom(t: State, code: Option<int>, signal: Option<string>)
    requires FreshLaunch(t)
    ensures var r := Replay(t, [MarkerWritten, Exit(code, signal), PollTick]);
      && r.effects == [Resolve(Failed(ExitFailure(t.active.value, code, signal))), Resolve(Ready(None))]
      && r.state == State(true, None, RegularFile, false)
  {
    Lifecycle.ReplayCons(t, MarkerWritten, [Exit(code, signal), PollTick]);
    assert [MarkerWritten] + [Exit(code, signal), PollTick] == [MarkerWritten, Exit(code, signal), PollTick];
    ReplayTwo(OnEvent(t, MarkerWritten).state, Exit(code, signal), PollTick);
  }

  /** The poll is not cancelled when the process exits. The tunnel writes
      its readiness file and then exits before the next 800 ms tick: the
      exit handler, seeing `started` still false, reports a failure, and the
      tick then finds the file and reports again, this time ready with no
      tunnel. `run`'s callback is invoked twice. */
  lemma ExitBeforeTickResolvesTwice(s: State, opts: Options, location: string, tmpDir: string,
                                    code: Option<int>, signal: Option<string>)
    requires !s.started && RunClears(s.marker)
    ensures var launched := Run(s, opts, location, tmpDir, true).state;
      var r := Replay(launched, [MarkerWritten, Exit(code, signal), PollTick]);
      && r.effects == [Resolve(Failed(ExitError(code, signal))), Resolve(Ready(None))]
      && r.state.started && r.state.active.None? && r.state.marker == RegularFile
  {
    var launched := Run(s, opts, location, tmpDir, true).state;
    LaunchIsFresh(s, opts, location, tmpDir);
    assert launched.active.value.error == None;
    MarkerExitTickFrom(launched, code, signal);
  }

  /** `run` does not reset `started`, so the flag set by that second report
      outlives the launch. The next launch's tunnel then exits before it is
      ready without any report: the exit handler takes it for a tunnel that
      was ready, and `run`'s callback is not invoked. */
  lemma StaleStartedSilencesNextExit(s: State, opts: Options, location: string, tmpDir: string,
                                     code: Option<int>, signal: Option<string>,
                                     code2: Option<int>, signal2: Option<string>)
    requires !s.started && RunClears(s.marker)
    ensures var launched := Run(s, opts, location, tmpDir, true).state;
      var first := Replay(launched, [MarkerWritten, Exit(code, signal), PollTick]).state;
      var second := Run(first, opts, location, tmpDir, true);
      && second.state.started
      && Replay(second.state, [Exit(code2, signal2), PollTick]).effects == []
  {
    ExitBeforeTickResolvesTwice(s, opts, location, tmpDir, code, signal);
    var launched := Run(s, opts, location, tmpDir, true).state;
    var first := Replay(launched, [MarkerWritten, Exit(code, signal), PollTick]).state;
    var second := Run(first, opts, location, tmpDir, true).state;
    SilentExitFrom(second, code2, signal2);
  }

  /** From a launch that `started` already marks as ready, an exit and the
      following tick report nothing. */
  lemma SilentExitFrom(t: State, code: Option<int>, signal: Option<string>)
    requires t.started && t.active.Some? && t.marker == Absent
    ensures Replay(t, [Exit(code, signal), PollTick]).effects == []
  {
    ReplayTwo(t, Exit(code, signal), PollTick);
  }

  /** Stderr output that arrives after the exit handler has cleared
      `activeTunnel` and that is classified as fatal makes the handler throw. */
  lemma FatalChunkAfterExitThrows(s: State, opts: Options, location: string, tmpDir: string,
                                  code: Option<int>, signal: Option<string>, chunk: string)
    requires Text.Contains(chunk, Classifier.CredentialsMarker)
    ensures var launched := Run(s, opts, location, tmpDir, true).state;
      var r := Replay(launched, [Exit(code, signal), Stderr(chunk)]);
      Uncaught in r.effects
  {
    ThrowAfterExitFrom(Run(s, opts, location, tmpDir, true).state, code, signal, chunk);
  }

  lemma ThrowAfterExitFrom(t: State, code: Option<int>, signal: Option<string>, chunk: string)
    requires t.active.Some?
    requires Text.Contains(chunk, Classifier.CredentialsMarker)
    ensures Uncaught in Replay(t, [Exit(code, signal), Stderr(chunk)]).effects
  {
    ReplayTwo(t, Exit(code, signal), Stderr(chunk));
  }
}

=== FILE: text.dfy ===
/** String utilities the launcher relies on through JavaScript built-ins:
    integer-to-decimal rendering (`Number.prototype.toString`), `indexOf`,
    ASCII lower-casing and `String.prototype.trim`. */
module Text {

  // ---------------------------------------------------------------------
  // Decimal rendering
  // ---------------------------------------------------------------------

  predicate IsDigit(c: char) {
    '0' <= c <= '9'
  }

  predicate AllDigits(s: string) {
    forall i :: 0 <= i < |s| ==> IsDigit(s[i])
  }

  function DigitChar(d: nat): (c: char)
    requires d < 10
    ensures IsDigit(c)
  {
    (('0' as int) + d) as char
  }

  function DigitValue(c: char): nat
    requires IsDigit(c)
  {
    (c as int) - ('0' as int)
  }

  /** The decimal text of `n`: at least one digit, no leading zero. */
  function NatToString(n: nat): (r: string)
    ensures |r| >= 1 && AllDigits(r)
    ensures r[0] == '0' ==> n == 0
    decreases n
  {
    if n < 10 then [DigitChar(n)] else NatToString(n / 10) + [DigitChar(n % 10)]
  }

  /** Reads a string of decimal digits back as a number. */
  function DigitsValue(s: string): nat
    requires AllDigits(s)
    decreases |s|
  {
    if s == [] then 0 else DigitsValue(s[..|s| - 1]) * 10 + DigitValue(s[|s| - 1])
  }

  /** Reading the rendering back gives the number: the rendering loses nothing. */
  lemma {:induction false} DigitsValueOfNatToString(n: nat)
    ensures DigitsValue(NatToString(n)) == n
    decreases n
  {
    if n >= 10 {
      var p := NatToString(n / 10);
      var r := p + [DigitChar(n % 10)];
      assert r[..|r| - 1] == p;
      DigitsValueOfNatToString(n / 10);
    }
  }

  lemma NatToStringInjective(a: nat, b: nat)
    requires NatToString(a) == NatToString(b)
    ensures a == b
  {
    DigitsValueOfNatToString(a);
    DigitsValueOfNatToString(b);
  }

  /** JavaScript's rendering of an integral number: a minus sign, then the digits. */
  function IntToString(i: int): (r: string)
    ensures |r| >= 1
    ensures i < 0 <==> r[0] == '-'
    ensures i >= 0 ==> r == NatToString(i)
  {
    if i < 0 then "-" + NatToString(-i) else NatToString(i)
  }

  /** Distinct integers render differently, so the rendering names the number. */
  lemma IntToStringInjective(a: int, b: int)
    requires IntToString(a) == IntToString(b)
    ensures a == b
  {
    if a < 0 && b < 0 {
      assert IntToString(a)[1..] == NatToString(-a);
      assert IntToString(b)[1..] == NatToString(-b);
      NatToStringInjective(-a, -b);
    } else if a >= 0 && b >= 0 {
      NatToStringInjective(a, b);
    }
  }

  // ---------------------------------------------------------------------
  // Substring search
  // ---------------------------------------------------------------------

  /** `p` occurs in `s` starting at index `i`. */
  predicate OccursAt(s: string, p: string, i: int) {
    0 <= i && i + |p| <= |s| && s[i..i + |p|] == p
  }

  /** `String.prototype.indexOf(p, from)`: the first index at or after `from`
      where `p` occurs, or -1 when there is none. */
  function IndexOfFrom(s: string, p: string, from: nat): (r: int)
    requires from <= |s|
    ensures r == -1 || (from <= r && OccursAt(s, p, r))
    ensures r == -1 ==> forall j :: from <= j ==> !OccursAt(s, p, j)
    ensures r != -1 ==> forall j :: from <= j < r ==> !OccursAt(s, p, j)
    decreases |s| - from
  {
    if from + |p| > |s| then -1
    else if s[from..from + |p|] == p then from
    else IndexOfFrom(s, p, from + 1)
  }

  function IndexOf(s: string, p: string): int {
    IndexOfFrom(s, p, 0)
  }

  /** The source's `s.indexOf(p) > -1` idiom. */
  predicate Contains(s: string, p: string) {
    IndexOf(s, p) > -1
  }

  lemma ContainsIffOccurs(s: string, p: string)
    ensures Contains(s, p) <==> exists i :: OccursAt(s, p, i)
  {
    if !Contains(s, p) {
      assert forall j :: 0 <= j ==> !OccursAt(s, p, j);
    }
  }

  // ---------------------------------------------------------------------
  // Lower-casing (ASCII letters only)
  // ---------------------------------------------------------------------

  function LowerChar(c: char): char {
    if 'A' <= c <= 'Z' then ((c as int) + 32) as char else c
  }

  function ToLower(s: string): (r: string)
    ensures |r| == |s|
    ensures forall i :: 0 <= i < |s| ==> r[i] == LowerChar(s[i])
  {
    seq(|s|, i requires 0 <= i < |s| => LowerChar(s[i]))
  }

  /** Lower-casing leaves no upper-case ASCII letter and touches nothing
      else. */
  lemma ToLowerLowers(s: string)
    ensures forall i :: 0 <= i < |s| ==> !('A' <= ToLower(s)[i] <= 'Z')
    ensures forall i :: 0 <= i < |s| && !('A' <= s[i] <= 'Z') ==> ToLower(s)[i] == s[i]
  {
  }

  /** An independent reading of "contains `p`, ignoring case": some window of
      `s` agrees with `p` letter by letter after lower-casing each letter. */
  ghost predicate ContainsIgnoringCase(s: string, p: string) {
    exists i :: 0 <= i && i + |p| <= |s| && MatchesLowered(s, p, i)
  }

  ghost predicate MatchesLowered(s: string, p: string, i: int)
    requires 0 <= i && i + |p| <= |s|
  {
    forall k :: 0 <= k < |p| ==> LowerChar(s[i + k]) == p[k]
  }

  /** `s.toLowerCase().indexOf(p) > -1` is exactly the case-insensitive
      containment of a lower-case pattern. */
  lemma ContainsLowerIff(s: string, p: string)
    ensures Contains(ToLower(s), p) <==> ContainsIgnoringCase(s, p)
  {
    var l := ToLower(s);
    ContainsIffOccurs(l, p);
    if Contains(l, p) {
      var i :| OccursAt(l, p, i);
      forall k | 0 <= k < |p|
        ensures LowerChar(s[i + k]) == p[k]
      {
        assert l[i..i + |p|][k] == l[i + k];
      }
      assert MatchesLowered(s, p, i);
    }
    if ContainsIgnoringCase(s, p) {
      var i :| 0 <= i && i + |p| <= |s| && MatchesLowered(s, p, i);
      assert l[i..i + |p|] == p;
      assert OccursAt(l, p, i);
    }
  }

  // ---------------------------------------------------------------------
  // Trimming
  // ---------------------------------------------------------------------

  /** The characters `String.prototype.trim` removes: ECMAScript WhiteSpace
      and LineTerminator code points. */
  predicate IsJsWhitespace(c: char) {
    || c == '\t' || c == '\n' || c == '\U{000B}' || c == '\U{000C}' || c == '\r'
    || c == ' ' || c == '\U{00A0}' || c == '\U{1680}'
    || ('\U{2000}' <= c <= '\U{200A}')
    || c == '\U{2028}' || c == '\U{2029}' || c == '\U{202F}' || c == '\U{205F}'
    || c == '\U{3000}' || c == '\U{FEFF}'
  }

  predicate AllWhitespace(s: string) {
    forall i :: 0 <= i < |s| ==> IsJsWhitespace(s[i])
  }

  /** Index of the first non-whitespace character (or `|s|`). */
  function TrimStart(s: string, from: nat := 0): (a: nat)
    requires from <= |s|
    ensures from <= a <= |s|
    ensures forall i :: from <= i < a ==> IsJsWhitespace(s[i])
    ensures a < |s| ==> !IsJsWhitespace(s[a])
    decreases |s| - from
  {
    if from == |s| || !IsJsWhitespace(s[from]) then from else TrimStart(s, from + 1)
  }

  /** Index just past the last non-whitespace character at or after `lo`
      (or `lo` itself when there is none). */
  function TrimEnd(s: string, lo: nat, hi: nat): (b: nat)
    requires lo <= hi <= |s|
    ensures lo <= b <= hi
    ensures forall i :: b <= i < hi ==> IsJsWhitespace(s[i])
    ensures b > lo ==> !IsJsWhitespace(s[b - 1])
    decreases hi
  {
    if hi == lo || !IsJsWhitespace(s[hi - 1]) then hi else TrimEnd(s, lo, hi - 1)
  }

  /** `String.prototype.trim`: the slice of `s` between its leading and
      trailing whitespace; everything cut off is whitespace, and what is
      kept neither starts nor ends with whitespace. */
  function Trim(s: string): (r: string)
    ensures var a := TrimStart(s); var b := TrimEnd(s, a, |s|);
      && r == s[a..b]
      && (forall i :: 0 <= i < a ==> IsJsWhitespace(s[i]))
      && (forall i :: b <= i < |s| ==> IsJsWhitespace(s[i]))
      && (r != [] ==> !IsJsWhitespace(r[0]) && !IsJsWhitespace(r[|r| - 1]))
  {
    var a := TrimStart(s);
    s[a..TrimEnd(s, a, |s|)]
  }

  lemma SliceOccurrence(s: string, p: string, a: nat, b: nat, j: int)
    requires a <= b <= |s|
    ensures OccursAt(s[a..b], p, j) <==> 0 <= j && a + j + |p| <= b && OccursAt(s, p, a + j)
  {
    if 0 <= j && a + j + |p| <= b {
      var x, y := s[a..b][j..j + |p|], s[a + j..a + j + |p|];
      forall k | 0 <= k < |p|
        ensures x[k] == y[k]
      {
        assert x[k] == s[a..b][j + k] == s[a + j + k];
      }
      assert x == y;
    }
  }

  /** An occurrence of a pattern with non-whitespace ends lies inside the
      trimmed part. */
  lemma OccurrenceInsideTrim(s: string, p: string, i: int)
    requires p != [] && !IsJsWhitespace(p[0]) && !IsJsWhitespace(p[|p| - 1])
    requires OccursAt(s, p, i)
    ensures TrimStart(s) <= i && i + |p| <= TrimEnd(s, TrimStart(s), |s|)
  {
    assert s[i] == s[i..i + |p|][0];
    assert s[i + |p| - 1] == s[i..i + |p|][|p| - 1];
  }

  /** Trimming never changes whether a pattern occurs, as long as the pattern
      itself starts and ends with a non-whitespace character. */
  lemma TrimKeepsContainment(s: string, p: string)
    requires p != [] && !IsJsWhitespace(p[0]) && !IsJsWhitespace(p[|p| - 1])
    ensures Contains(Trim(s), p) <==> Contains(s, p)
  {
    if Contains(Trim(s), p) {
      ContainmentOutOfTrim(s, p);
    }
    if Contains(s, p) {
      ContainmentIntoTrim(s, p);
    }
  }

  lemma ContainmentOutOfTrim(s: string, p: string)
    requires Contains(Trim(s), p)
    ensures Contains(s, p)
  {
    var a := TrimStart(s);
    ContainsIffOccurs(Trim(s), p);
    ContainsIffOccurs(s, p);
    var j :| OccursAt(Trim(s), p, j);
    SliceOccurrence(s, p, a, TrimEnd(s, a, |s|), j);
  }

  lemma ContainmentIntoTrim(s: string, p: string)
    requires p != [] && !IsJsWhitespace(p[0]) && !IsJsWhitespace(p[|p| - 1])
    requires Contains(s, p)
    ensures Contains(Trim(s), p)
  {
    var a := TrimStart(s);
    ContainsIffOccurs(Trim(s), p);
    ContainsIffOccurs(s, p);
    var i :| OccursAt(s, p, i);
    OccurrenceInsideTrim(s, p, i);
    SliceOccurrence(s, p, a, TrimEnd(s, a, |s|), i - a);
  }
}
